=== FILE: README.md ===
# Secure file server: access gate and audit trail

A Dafny model of the one route of the lab's secure file server
(`courseFiles/Section_04-containerAndCloudSecurity/app.py`). For every
`GET /<path:filename>` the route:

1. reads the presented key from the `X-API-KEY` header, taking `""` when the
   header is absent;
2. denies when the configured `API_KEY` is empty or differs from the presented
   key (fail-closed);
3. hands exactly one line to its logger: `DENY <addr> <filename>
   headers=<all headers>` or `ALLOW <addr> <filename>`. The line reaches the
   access log only if the logger's level lets INFO through, and as written it
   does so only in debug mode (see Findings);
4. then either aborts with 403 Forbidden (section 15.5.4 of RFC 9110) or hands
   the file name to `send_from_directory`.

Modules, leaf first:

- `Wrappers` (`wrappers.dfy`): `Option`.
- `Headers` (`headers.dfy`): the header lines a client sends, in order, where
  a name may repeat. Before the route runs, the server folds them into the
  request object's view: one entry per name (ASCII case ignored). For every
  name except `Content-Type` and `Content-Length`, the entry's value is every
  value sent under that name joined with `,`. The module also models
  `headers.get(name, default)` on that view.
- `AccessGate` (`access_gate.dfy`): the presented key and the decision. The
  `Denied` predicate has the same shape as the route's condition.
- `AuditLog` (`audit_log.dfy`): the two log lines as the f-strings render
  them, including the rendering of `dict(request.headers)`, and a reader that
  gets the decision back from a line.
- `Logging` (`logging_levels.dfy`): the level filter between
  `app.logger.info` and the file handler. See Findings.
- `FileServer` (`file_server.dfy`): the per-request steps as pure functions,
  and the class `App`. `App` holds:
  - the key, read once (`const apiKey`);
  - the level of its logger (`const loggerLevel`): `FlaskLoggerLevel(debug)`
    as written, or INFO as corrected;
  - the audit sink `log`, which keeps the lines already in the file and only
    ever has lines appended;
  - the file names handed to file serving (`served`);
  - a ghost trace of every step in order.

  `App.GetFile` is the route.

Three facts about the route matter for security:

- it compares keys with plain `!=` (app.py line 13), not in constant time;
- a deny line logs every header value unredacted (as Python's `repr` prints
  it; line 14), the presented key
  included (`AuditLog.DenyRecordShowsPresentedKey`);
- its own code answers only 403. A 404 for a missing file, or for a path
  outside `DATA_DIR`, comes from `send_from_directory`, which is not modelled.

## Model

| member | source | states |
|---|---|---|
| `Headers.FindFirst` | courseFiles/Section_04-containerAndCloudSecurity/app.py:12 | the index found belongs to an entry with the wanted name (ASCII case ignored), and no earlier entry has that name; None exactly when no entry has it |
| `Headers.Get` | courseFiles/Section_04-containerAndCloudSecurity/app.py:12 | `headers.get(name, default)` on the request object's view gives the default when no entry has the name, and otherwise the value of the entry that has it |
| `Headers.Join` | courseFiles/Section_04-containerAndCloudSecurity/app.py:12 | joining a single value gives that value unchanged |
| `Headers.ValuesEmpty` | courseFiles/Section_04-containerAndCloudSecurity/app.py:12 | no value was sent under a name exactly when no header line has that name |
| `Headers.Merge` | courseFiles/Section_04-containerAndCloudSecurity/app.py:12-14 | the request object's view that `headers.get` and `dict(request.headers)` read: no more entries than lines sent, every entry named after a line that was sent, and no two entries with the same name |
| `Headers.MergeLookup` | courseFiles/Section_04-containerAndCloudSecurity/app.py:12 | the request object's view has an entry for a name exactly when some line was sent under it, and that entry's value is all the values sent under the name, in order, joined with `,` |
| `AccessGate.PresentedKey` | courseFiles/Section_04-containerAndCloudSecurity/app.py:12 | the presented key is `""` when no `X-API-KEY` line was sent, and otherwise all `X-API-KEY` values in order, joined with `,` |
| `AccessGate.Denied` | courseFiles/Section_04-containerAndCloudSecurity/app.py:13 | the route's deny test: with no key configured every presented key is denied, and a presented key gets through only if it equals the configured one |
| `AccessGate.Decide` | courseFiles/Section_04-containerAndCloudSecurity/app.py:13 | a request is allowed if and only if a key is configured and the presented key equals it exactly |
| `AccessGate.FailClosed` | courseFiles/Section_04-containerAndCloudSecurity/app.py:13 | with an empty configured key, every presented key is denied |
| `AccessGate.MissingHeaderDenied` | courseFiles/Section_04-containerAndCloudSecurity/app.py:12-13 | without an `X-API-KEY` header the presented key is `""`, and it is denied under any configured key |
| `AccessGate.RepeatedKeyHeaderJoined` | courseFiles/Section_04-containerAndCloudSecurity/app.py:12-13 | two `X-API-KEY` lines present `a,b`, so the right key sent beside a second value is denied |
| `AuditLog.RenderAddr` | courseFiles/Section_04-containerAndCloudSecurity/app.py:14 | the address as the f-string prints `request.remote_addr`: the address itself, or `None` when the server knows none |
| `AuditLog.RenderItems` | courseFiles/Section_04-containerAndCloudSecurity/app.py:14 | the items of the rendered header dict: empty exactly when there are no headers, and otherwise starting with the first header's `'name': 'value'` item |
| `AuditLog.RenderHeaders` | courseFiles/Section_04-containerAndCloudSecurity/app.py:14 | `dict(request.headers)` as printed: enclosed in braces, and `{}` exactly when there are no headers |
| `AuditLog.Record` | courseFiles/Section_04-containerAndCloudSecurity/app.py:14-16 | every line starts with `ALLOW ` or `DENY `, then the address, a space and the file name; an allow line is exactly `ALLOW <addr> <filename>` |
| `AuditLog.DecisionRecoverable` | courseFiles/Section_04-containerAndCloudSecurity/app.py:14-16 | reading the leading word of any line gives back the decision that was logged |
| `AuditLog.ItemsShowEveryHeader` | courseFiles/Section_04-containerAndCloudSecurity/app.py:14 | the rendered header dict contains a `'name': 'value'` item for every entry of the header view |
| `AuditLog.DenyRecordShowsEveryHeader` | courseFiles/Section_04-containerAndCloudSecurity/app.py:14 | a deny line contains every header entry's name and value unredacted (as Python's `repr` prints it) |
| `AuditLog.DenyRecordShowsValue` | courseFiles/Section_04-containerAndCloudSecurity/app.py:14 | a deny line contains every header value as `': '<value>'` |
| `AuditLog.DenyRecordShowsPresentedKey` | courseFiles/Section_04-containerAndCloudSecurity/app.py:12-14 | when a denied request sent `X-API-KEY`, the key it presented is written to the log |
| `Logging.Emit` | courseFiles/Section_04-containerAndCloudSecurity/app.py:7-9 | a line is appended to the sink if and only if its level reaches both the logger's effective level and the handler's level; otherwise the sink is unchanged |
| `Logging.FlaskLoggerLevel` | courseFiles/Section_04-containerAndCloudSecurity/app.py:9 | the logger Flask gives the application has effective level WARNING outside debug mode and DEBUG in it |
| `Logging.AsWrittenDropsAuditLines` | courseFiles/Section_04-containerAndCloudSecurity/app.py:7-9 | with the logger level Flask leaves in place, an INFO audit line reaches the sink only in debug mode |
| `Logging.CorrectedKeepsAuditLines` | courseFiles/Section_04-containerAndCloudSecurity/app.py:8 | with the logger at INFO, every INFO audit line is appended |
| `FileServer.AuditRecord` | courseFiles/Section_04-containerAndCloudSecurity/app.py:14-16 | the logged line records the decision taken for the request |
| `FileServer.Respond` | courseFiles/Section_04-containerAndCloudSecurity/app.py:13-17 | the request is served if and only if a key is configured and the presented key equals it, and then the requested file is served |
| `FileServer.AuditBeforeResponse` | courseFiles/Section_04-containerAndCloudSecurity/app.py:14-17 | each request has two steps: first its one audit line, then the response; no other line is written |
| `FileServer.ServedOnlyWhenAllowed` | courseFiles/Section_04-containerAndCloudSecurity/app.py:15-17 | file serving happens for the requested file exactly when the request is allowed; the 403 abort happens exactly when it is forbidden |
| `FileServer.EmptyKeyForbidsAll` | courseFiles/Section_04-containerAndCloudSecurity/app.py:13-15 | with no key configured, every request is forbidden and nothing is served, whatever its headers |
| `FileServer.MissingKeyForbidden` | courseFiles/Section_04-containerAndCloudSecurity/app.py:12-15 | a request without an `X-API-KEY` header is forbidden |
| `FileServer.DeniedRecord` | courseFiles/Section_04-containerAndCloudSecurity/app.py:13-15 | a denied request gets 403, and its line starts with `DENY <addr> <filename>` and carries every header entry |
| `FileServer.AllowedRecord` | courseFiles/Section_04-containerAndCloudSecurity/app.py:16-17 | an allowed request is served, and its line is exactly `ALLOW <addr> <filename>` |
| `FileServer.DeniedSteps` | courseFiles/Section_04-containerAndCloudSecurity/app.py:13-15 | a denied request is forbidden; its line is the `DENY <addr> <filename> headers=<dict>` f-string; its steps are that line, then the 403 abort |
| `FileServer.AllowedSteps` | courseFiles/Section_04-containerAndCloudSecurity/app.py:16-17 | an allowed request is served; its line is the `ALLOW <addr> <filename>` f-string; its steps are that line, then the hand-off to file serving |
| `FileServer.App.constructor` | courseFiles/Section_04-containerAndCloudSecurity/app.py:6-9 | the key and the logger level are fixed at start-up; the sink keeps the lines already in the file; nothing has been served yet |
| `FileServer.App.Info` | courseFiles/Section_04-containerAndCloudSecurity/app.py:14-16 | `app.logger.info(line)` appends that line if the logger level lets INFO through, leaves the sink unchanged otherwise, and changes nothing else |
| `FileServer.App.Serve` | courseFiles/Section_04-containerAndCloudSecurity/app.py:17 | the hand-off to `send_from_directory` is recorded, and the log is untouched |
| `FileServer.App.Abort403` | courseFiles/Section_04-containerAndCloudSecurity/app.py:15 | aborting writes and serves nothing |
| `FileServer.App.GetFile` | courseFiles/Section_04-containerAndCloudSecurity/app.py:11-17 | the outcome is the decision's response. The request's audit line goes through the logger: with INFO let through the log grows by exactly that line, otherwise it is unchanged, and earlier lines stay as they were. The file is served only when the outcome is `Served`. The steps are the audit line first, then the response |
| `FileServer.AsWrittenRequestLogsNothing` | courseFiles/Section_04-containerAndCloudSecurity/app.py:7-16 | with the logger as Flask leaves it outside debug mode, a request to a server with an empty log leaves the log empty |
| `FileServer.CorrectedRequestLogsOneLine` | courseFiles/Section_04-containerAndCloudSecurity/app.py:8-16 | with the logger at INFO, a request to a server with an empty log leaves exactly its audit line |

## Findings

| source | as written | input that shows it | evidently intended | confidence | as-written member | corrected member |
|---|---|---|---|---|---|---|
| courseFiles/Section_04-containerAndCloudSecurity/app.py:7-9 | The handler is set to INFO, but the level of `app.logger` is not. Flask sets that level to DEBUG only in debug mode; otherwise it stays unset and the root logger's WARNING applies. `app.logger.info(...)` then discards the audit lines before any handler sees them | any request while debug mode is off (`FLASK_DEBUG` unset) and no other code configures logging: the access log gets no line (`FileServer.AsWrittenRequestLogsNothing`) | every request writes one line to the access log (`app.logger.setLevel(logging.INFO)`), as `FileServer.CorrectedRequestLogsOneLine` shows | medium; not executed; relies on Flask's and Python's documented logging defaults | `Logging.AsWrittenDropsAuditLines` | `Logging.CorrectedKeepsAuditLines` |

## Left out

- Path resolution, traversal defence and file streaming: `send_from_directory` does all three, and it is not part of this model. The model records only that the file name was handed to it (`App.Serve`), and it makes no claim about traversal.
- The HTTP response body of `abort(403)`, and whatever `send_from_directory` returns: only the outcome `Forbidden` or `Served(filename)` is modelled.
- Flask app creation, routing, URL decoding of the path and `app.run` (host, port): this is transport plumbing. `filename` is the already decoded path string.
- Reading the environment: `API_KEY` is a constructor parameter held in a `const`. The logger level is a constructor parameter too; the debug flag that decides it is not read from the environment. `DATA_DIR` is only used by file serving.
- The log file itself: the sink is an in-memory sequence of lines. The handler's line terminator, file opening and write failures are not modelled.
- Concurrency: Python's logging serialises writes. One request at a time is modelled.
- Constant-time comparison: the code uses plain `!=`, and timing cannot be expressed here.
- Headers.Merge: models the server's folding of repeated header lines into one comma-joined value per name. The server does not fold `Content-Type` and `Content-Length` this way: a later line overwrites an earlier one, and the view leaves either out when its value is empty. `Merge` joins them like any other name, so for a request with two `Content-Type` lines `a` and `b` the modelled deny line shows `a,b` where the server's shows `b`. The access decision is unaffected, because `X-API-KEY` is folded by joining. It also does not model the WSGI environment's other renamings: `-` and `_` becoming interchangeable, lines whose names contain `_` being dropped, and names being title-cased in the view. Names are compared ignoring ASCII case only, and each entry keeps the name of its first line.
- AuditLog.RenderHeaders: does not model Python's `repr`: it escapes backslashes, the quote character, tabs and other non-printable characters, and it switches to double quotes for a string that contains `'` but no `"`; the model renders every name and value as sent.
- Python's logging `manager.disable` and logger filters: no code in the route sets them.

=== FILE: access_gate.dfy ===
/**
  The access decision of `get_file`: the presented key is the `X-API-KEY`
  header (empty when absent), and the request is denied when no key is
  configured or the presented key differs from the configured one.
 */
module AccessGate {
  import opened Headers

  /** Name of the header that carries the credential. */
  const ApiKeyHeader: string := "X-API-KEY"

  /**
    The key a request with header lines `raw` presents:
    `request.headers.get('X-API-KEY', '')` on the request object's view.
   */
  function PresentedKey(raw: seq<Header>): (key: string)
    ensures Values(raw, ApiKeyHeader) == [] ==> key == ""
    ensures Values(raw, ApiKeyHeader) != [] ==> key == Join(Values(raw, ApiKeyHeader))
  {
    MergeLookup(raw, ApiKeyHeader);
    Get(Merge(raw), ApiKeyHeader, "")
  }

  /** The deny test, as the route states it: no key configured, or a different key presented. */
  predicate Denied(configured: string, presented: string)
    ensures configured == "" ==> Denied(configured, presented)
    ensures !Denied(configured, presented) ==> presented == configured
  {
    configured == "" || presented != configured
  }

  /** The outcome of the access check. */
  datatype Decision = Allow | Deny

  /** The decision taken for a configured and a presented key. */
  function Decide(configured: string, presented: string): (d: Decision)
    ensures d == Allow <==> configured != "" && presented == configured
  {
    if Denied(configured, presented) then Deny else Allow
  }

  /** Fail-closed: with no key configured, every presented key is denied. */
  lemma FailClosed(presented: string)
    ensures Denied("", presented)
  {
  }

  /** A request without an `X-API-KEY` header presents "" and is denied, whatever key is configured. */
  lemma MissingHeaderDenied(configured: string, raw: seq<Header>)
    requires !Present(raw, ApiKeyHeader)
    ensures PresentedKey(raw) == ""
    ensures Denied(configured, PresentedKey(raw))
  {
    ValuesEmpty(raw, ApiKeyHeader);
  }

  /**
    Two `X-API-KEY` lines present their values joined with ",", so sending
    the right key a second time beside another value is denied.
   */
  lemma RepeatedKeyHeaderJoined(a: string, b: string, configured: string)
    ensures PresentedKey([Header(ApiKeyHeader, a), Header(ApiKeyHeader, b)]) == a + "," + b
    ensures configured == a ==> Decide(configured, PresentedKey([Header(ApiKeyHeader, a), Header(ApiKeyHeader, b)])) == Deny
  {
    var raw := [Header(ApiKeyHeader, a), Header(ApiKeyHeader, b)];
    assert raw[..1][..0] == [];
    assert Values(raw[..1], ApiKeyHeader) == [a];
    assert Values(raw, ApiKeyHeader) == [a, b];
    assert [a, b][..1] == [a];
    assert |a + "," + b| > |a|;
  }
}

=== FILE: audit_log.dfy ===
/**
  The two audit lines `get_file` writes, as its f-strings render them:
  `DENY <remote_addr> <filename> headers=<dict of all headers>` and
  `ALLOW <remote_addr> <filename>`.
 */
module AuditLog {
  import opened Wrappers
  import opened Headers
  import opened AccessGate

  /** How an f-string renders the remote address: the address, or `None` when the server knows none. */
  function RenderAddr(addr: Option<string>): (r: string)
    ensures addr.Some? ==> r == addr.value
    ensures addr.None? ==> r == "None"
  {
    match addr
    case None => "None"
    case Some(a) => a
  }

  /** One `'name': 'value'` item of a rendered dict. */
  function RenderItem(h: Header): string
  {
    "'" + h.name + "': '" + h.value + "'"
  }

  /** The items of a rendered dict, separated by `, `. */
  function RenderItems(hs: seq<Header>): (r: string)
    ensures r == "" <==> |hs| == 0
    ensures |hs| > 0 ==> RenderItem(hs[0]) <= r
  {
    if |hs| == 0 then ""
    else if |hs| == 1 then RenderItem(hs[0])
    else RenderItem(hs[0]) + ", " + RenderItems(hs[1..])
  }

  /** `dict(request.headers)` as an f-string renders it, from the request object's view `hs`. */
  function RenderHeaders(hs: seq<Header>): (r: string)
    ensures |r| >= 2 && r[0] == '{' && r[|r| - 1] == '}'
    ensures r == "{}" <==> |hs| == 0
  {
    "{" + RenderItems(hs) + "}"
  }

  /** The leading word of a record for each decision. */
  function Keyword(d: Decision): string
  {
    match d
    case Allow => "ALLOW "
    case Deny => "DENY "
  }

  /**
    The audit record for a decision about `filename`, requested from `addr`
    with header view `hs`. It starts with the decision's keyword, then the
    address, a space and the file name; an allow record is exactly that.
   */
  function Record(d: Decision, addr: Option<string>, filename: string, hs: seq<Header>): (r: string)
    ensures Keyword(d) + RenderAddr(addr) + " " + filename <= r
    ensures d == Allow ==> r == "ALLOW " + RenderAddr(addr) + " " + filename
  {
    match d
    case Deny => "DENY " + RenderAddr(addr) + " " + filename + " headers=" + RenderHeaders(hs)
    case Allow => "ALLOW " + RenderAddr(addr) + " " + filename
  }

  /** Reads the decision back from the leading word of a record. */
  function RecordedDecision(line: string): Option<Decision>
  {
    if |line| >= 6 && line[..6] == "ALLOW " then Some(Allow)
    else if |line| >= 5 && line[..5] == "DENY " then Some(Deny)
    else None
  }

  /** Whether `t` occurs in `s` as a contiguous piece. */
  predicate Contains(s: string, t: string)
  {
    exists i :: 0 <= i <= |s| && t <= s[i..]
  }

  /** The decision can be read back from every record. */
  lemma DecisionRecoverable(d: Decision, addr: Option<string>, filename: string, hs: seq<Header>)
    ensures RecordedDecision(Record(d, addr, filename, hs)) == Some(d)
  {
    var line := Record(d, addr, filename, hs);
    assert line[..|Keyword(d)|] == Keyword(d);
    if d == Deny {
      assert line[0] == 'D';
    }
  }

  lemma ContainsAtStart(t: string, u: string)
    ensures Contains(t + u, t)
  {
    assert (t + u)[0..] == t + u;
  }

  lemma ContainsAfter(a: string, s: string, t: string)
    requires Contains(s, t)
    ensures Contains(a + s, t)
  {
    var i :| 0 <= i <= |s| && t <= s[i..];
    assert (a + s)[|a| + i..] == s[i..];
  }

  lemma ContainsBefore(s: string, b: string, t: string)
    requires Contains(s, t)
    ensures Contains(s + b, t)
  {
    var i :| 0 <= i <= |s| && t <= s[i..];
    assert (s + b)[i..] == s[i..] + b;
  }

  lemma ContainsTail(s: string, p: string, t: string)
    requires Contains(s, p + t)
    ensures Contains(s, t)
  {
    var i :| 0 <= i <= |s| && p + t <= s[i..];
    assert t <= s[i + |p|..];
  }

  /** Every header appears as one item of the rendered items. */
  lemma {:induction false} ItemsShowEveryHeader(hs: seq<Header>, k: nat)
    requires k < |hs|
    ensures Contains(RenderItems(hs), RenderItem(hs[k]))
  {
    if |hs| == 1 {
      ContainsAtStart(RenderItem(hs[0]), "");
      assert RenderItem(hs[0]) + "" == RenderItems(hs);
    } else if k == 0 {
      ContainsAtStart(RenderItem(hs[0]), ", " + RenderItems(hs[1..]));
      assert RenderItem(hs[0]) + (", " + RenderItems(hs[1..])) == RenderItems(hs);
    } else {
      ItemsShowEveryHeader(hs[1..], k - 1);
      assert hs[1..][k - 1] == hs[k];
      ContainsAfter(RenderItem(hs[0]) + ", ", RenderItems(hs[1..]), RenderItem(hs[k]));
    }
  }

  /**
    A deny record carries every request header, name and value, unredacted.
    Names and values appear as sent; Python's `repr` escaping is not modelled.
   */
  lemma {:induction false} DenyRecordShowsEveryHeader(addr: Option<string>, filename: string, hs: seq<Header>, k: nat)
    requires k < |hs|
    ensures Contains(Record(Deny, addr, filename, hs), RenderItem(hs[k]))
  {
    var t, items := RenderItem(hs[k]), RenderItems(hs);
    var pre := "DENY " + RenderAddr(addr) + " " + filename + " headers=";
    ItemsShowEveryHeader(hs, k);
    ContainsBefore(items, "}", t);
    ContainsAfter("{", items + "}", t);
    assert "{" + (items + "}") == RenderHeaders(hs);
    ContainsAfter(pre, RenderHeaders(hs), t);
    assert pre + RenderHeaders(hs) == Record(Deny, addr, filename, hs);
  }

  /** Any text that contains a rendered item contains its value as `': '<value>'`. */
  lemma ItemShowsValue(s: string, h: Header)
    requires Contains(s, RenderItem(h))
    ensures Contains(s, "': '" + h.value + "'")
  {
    var t := "': '" + h.value + "'";
    assert RenderItem(h) == ("'" + h.name) + t;
    ContainsTail(s, "'" + h.name, t);
  }

  /** A deny record carries every header value as `': '<value>'`. */
  lemma DenyRecordShowsValue(addr: Option<string>, filename: string, env: seq<Header>, k: nat)
    requires k < |env|
    ensures Contains(Record(Deny, addr, filename, env), "': '" + env[k].value + "'")
  {
    DenyRecordShowsEveryHeader(addr, filename, env, k);
    ItemShowsValue(Record(Deny, addr, filename, env), env[k]);
  }

  /**
    In particular a denied request that sent `X-API-KEY` lines has the key
    it presented written to the audit record.
   */
  lemma DenyRecordShowsPresentedKey(addr: Option<string>, filename: string, raw: seq<Header>)
    requires Present(raw, ApiKeyHeader)
    ensures Contains(Record(Deny, addr, filename, Merge(raw)), "': '" + PresentedKey(raw) + "'")
  {
    ValuesEmpty(raw, ApiKeyHeader);
    MergeLookup(raw, ApiKeyHeader);
    var k := FindFirst(Merge(raw), ApiKeyHeader).value;
    DenyRecordShowsValue(addr, filename, Merge(raw), k);
  }
}

=== FILE: file_server.dfy ===
/**
  The route `get_file`: read the presented key, decide, write one audit
  line, then either abort with 403 or hand the file name to file serving.
 */
module FileServer {
  import opened Wrappers
  import opened Headers
  import opened AccessGate
  import opened AuditLog
  import opened Logging

  /** One request to the route: the path after `/`, its header lines as sent, and the client address. */
  datatype Request = Request(filename: string, headers: seq<Header>, remoteAddr: Option<string>)

  /** What a request ends in: `abort(403)`, or the file name handed to `send_from_directory`. */
  datatype Outcome = Forbidden | Served(filename: string)

  /** The externally visible steps of handling a request, in the order they happen. */
  datatype Effect = WriteLog(line: string) | Abort(status: nat) | SendFromDirectory(filename: string)

  /** 403 Forbidden, section 15.5.4 of RFC 9110. */
  const ForbiddenStatus: nat := 403

  /** The decision for a request under the configured key. */
  function DecisionFor(apiKey: string, req: Request): Decision
  {
    Decide(apiKey, PresentedKey(req.headers))
  }

  /** The line written to the audit sink for a request. */
  function AuditRecord(apiKey: string, req: Request): (line: string)
    ensures RecordedDecision(line) == Some(DecisionFor(apiKey, req))
  {
    DecisionRecoverable(DecisionFor(apiKey, req), req.remoteAddr, req.filename, Merge(req.headers));
    Record(DecisionFor(apiKey, req), req.remoteAddr, req.filename, Merge(req.headers))
  }

  /** How the request ends. */
  function Respond(apiKey: string, req: Request): (o: Outcome)
    ensures o.Served? <==> apiKey != "" && PresentedKey(req.headers) == apiKey
    ensures o.Served? ==> o.filename == req.filename
  {
    if DecisionFor(apiKey, req) == Deny then Forbidden else Served(req.filename)
  }

  /** The steps of one request: the audit line first, then the response. */
  function Steps(apiKey: string, req: Request): seq<Effect>
  {
    [WriteLog(AuditRecord(apiKey, req))]
    + match Respond(apiKey, req)
      case Forbidden => [Abort(ForbiddenStatus)]
      case Served(f) => [SendFromDirectory(f)]
  }

  /** The audit lines a sequence of steps writes, in order. */
  function AuditLines(trace: seq<Effect>): seq<string>
  {
    if |trace| == 0 then []
    else (if trace[0].WriteLog? then [trace[0].line] else []) + AuditLines(trace[1..])
  }

  /** The file names a sequence of steps hands to file serving, in order. */
  function ServedFiles(trace: seq<Effect>): seq<string>
  {
    if |trace| == 0 then []
    else (if trace[0].SendFromDirectory? then [trace[0].filename] else []) + ServedFiles(trace[1..])
  }

  lemma {:induction false} AuditLinesAppend(a: seq<Effect>, b: seq<Effect>)
    ensures AuditLines(a + b) == AuditLines(a) + AuditLines(b)
  {
    if |a| == 0 {
      assert a + b == b;
    } else {
      assert (a + b)[1..] == a[1..] + b;
      AuditLinesAppend(a[1..], b);
    }
  }

  lemma {:induction false} ServedFilesAppend(a: seq<Effect>, b: seq<Effect>)
    ensures ServedFiles(a + b) == ServedFiles(a) + ServedFiles(b)
  {
    if |a| == 0 {
      assert a + b == b;
    } else {
      assert (a + b)[1..] == a[1..] + b;
      ServedFilesAppend(a[1..], b);
    }
  }

  /**
    Every request writes exactly one audit line, and writes it before the
    response step, which is the last step.
   */
  lemma AuditBeforeResponse(apiKey: string, req: Request)
    ensures |Steps(apiKey, req)| == 2
    ensures Steps(apiKey, req)[0] == WriteLog(AuditRecord(apiKey, req))
    ensures !Steps(apiKey, req)[1].WriteLog?
    ensures AuditLines(Steps(apiKey, req)) == [AuditRecord(apiKey, req)]
  {
    var steps := Steps(apiKey, req);
    assert steps[1..][1..] == [];
    assert AuditLines(steps[1..]) == [];
  }

  /** File serving is reached exactly when the request is allowed, and then for the requested file. */
  lemma ServedOnlyWhenAllowed(apiKey: string, req: Request)
    ensures ServedFiles(Steps(apiKey, req)) ==
            if apiKey != "" && PresentedKey(req.headers) == apiKey then [req.filename] else []
    ensures Abort(ForbiddenStatus) in Steps(apiKey, req) <==> Respond(apiKey, req) == Forbidden
  {
    var steps := Steps(apiKey, req);
    assert steps[1..][1..] == [];
    assert ServedFiles(steps) == ServedFiles(steps[1..]);
  }

  /** With no key configured, every request is forbidden and nothing is served, whatever its headers. */
  lemma EmptyKeyForbidsAll(req: Request)
    ensures Respond("", req) == Forbidden
    ensures ServedFiles(Steps("", req)) == []
  {
    ServedOnlyWhenAllowed("", req);
  }

  /** A request without an `X-API-KEY` header is forbidden. */
  lemma MissingKeyForbidden(apiKey: string, req: Request)
    requires !Present(req.headers, ApiKeyHeader)
    ensures Respond(apiKey, req) == Forbidden
  {
    MissingHeaderDenied(apiKey, req.headers);
  }

  /**
    A denied request is answered with 403, and its audit line starts with
    `DENY`, then the address and the requested file, and carries every entry
    of the request object's header view, unredacted.
   */
  lemma DeniedRecord(apiKey: string, req: Request)
    requires Denied(apiKey, PresentedKey(req.headers))
    ensures Respond(apiKey, req) == Forbidden
    ensures "DENY " + RenderAddr(req.remoteAddr) + " " + req.filename <= AuditRecord(apiKey, req)
    ensures forall k :: 0 <= k < |Merge(req.headers)| ==>
              Contains(AuditRecord(apiKey, req), RenderItem(Merge(req.headers)[k]))
  {
    forall k | 0 <= k < |Merge(req.headers)|
      ensures Contains(AuditRecord(apiKey, req), RenderItem(Merge(req.headers)[k]))
    {
      DenyRecordShowsEveryHeader(req.remoteAddr, req.filename, Merge(req.headers), k);
    }
  }

  /** An allowed request's audit line is exactly `ALLOW <remote_addr> <filename>`. */
  lemma AllowedRecord(apiKey: string, req: Request)
    requires !Denied(apiKey, PresentedKey(req.headers))
    ensures Respond(apiKey, req) == Served(req.filename)
    ensures AuditRecord(apiKey, req) == "ALLOW " + RenderAddr(req.remoteAddr) + " " + req.filename
  {
  }

  /** The steps of a denied request: the `DENY` line of the f-string, then the 403 abort. */
  lemma DeniedSteps(apiKey: string, req: Request)
    requires Denied(apiKey, PresentedKey(req.headers))
    ensures Respond(apiKey, req) == Forbidden
    ensures AuditRecord(apiKey, req) ==
            "DENY " + RenderAddr(req.remoteAddr) + " " + req.filename + " headers=" + RenderHeaders(Merge(req.headers))
    ensures Steps(apiKey, req) == [WriteLog(AuditRecord(apiKey, req)), Abort(ForbiddenStatus)]
  {
  }

  /** The steps of an allowed request: the `ALLOW` line of the f-string, then the hand-off to file serving. */
  lemma AllowedSteps(apiKey: string, req: Request)
    requires !Denied(apiKey, PresentedKey(req.headers))
    ensures Respond(apiKey, req) == Served(req.filename)
    ensures AuditRecord(apiKey, req) == "ALLOW " + RenderAddr(req.remoteAddr) + " " + req.filename
    ensures Steps(apiKey, req) == [WriteLog(AuditRecord(apiKey, req)), SendFromDirectory(req.filename)]
  {
  }

  /**
    The application: the key read once at start-up, the level of its logger,
    the audit sink (lines already in the file stay, new lines are appended),
    the file names handed to `send_from_directory`, and the trace of every
    step in order.
   */
  class App {
    const apiKey: string
    const loggerLevel: nat
    ghost const priorLog: seq<string>
    var log: seq<string>
    var served: seq<string>
    ghost var trace: seq<Effect>

    ghost predicate Valid()
      reads this
    {
      && log == priorLog + (if Passes(INFO, loggerLevel) then AuditLines(trace) else [])
      && served == ServedFiles(trace)
    }

    constructor (apiKey: string, loggerLevel: nat, priorLog: seq<string>)
      ensures Valid()
      ensures this.apiKey == apiKey && this.loggerLevel == loggerLevel && this.priorLog == priorLog
      ensures log == priorLog && served == [] && trace == []
    {
      this.apiKey := apiKey;
      this.loggerLevel := loggerLevel;
      this.priorLog := priorLog;
      log := priorLog;
      served := [];
      trace := [];
    }

    /** `app.logger.info(line)`, through the logger and the file handler. */
    method Info(line: string)
      requires Valid()
      modifies this
      ensures Valid()
      ensures log == Emit(old(log), line, INFO, loggerLevel) && served == old(served)
      ensures trace == old(trace) + [WriteLog(line)]
    {
      log := Emit(log, line, INFO, loggerLevel);
      AuditLinesAppend(trace, [WriteLog(line)]);
      ServedFilesAppend(trace, [WriteLog(line)]);
      trace := trace + [WriteLog(line)];
    }

    /** `send_from_directory(DATA_DIR, filename)`: only the hand-off is recorded. */
    method Serve(filename: string)
      requires Valid()
      modifies this
      ensures Valid()
      ensures log == old(log) && served == old(served) + [filename]
      ensures trace == old(trace) + [SendFromDirectory(filename)]
    {
      AuditLinesAppend(trace, [SendFromDirectory(filename)]);
      ServedFilesAppend(trace, [SendFromDirectory(filename)]);
      served := served + [filename];
      trace := trace + [SendFromDirectory(filename)];
    }

    /** `abort(403)`: nothing is written or served; the step is recorded. */
    method Abort403()
      requires Valid()
      modifies this
      ensures Valid()
      ensures log == old(log) && served == old(served)
      ensures trace == old(trace) + [Abort(ForbiddenStatus)]
    {
      AuditLinesAppend(trace, [Abort(ForbiddenStatus)]);
      ServedFilesAppend(trace, [Abort(ForbiddenStatus)]);
      trace := trace + [Abort(ForbiddenStatus)];
    }

    /**
      The route `GET /<path:filename>`. The audit line goes through the
      logger: with a logger level that lets INFO through, the log grows by
      exactly that line; otherwise it is unchanged.
     */
    method GetFile(filename: string, headers: seq<Header>, remoteAddr: Option<string>) returns (outcome: Outcome)
      requires Valid()
      modifies this
      ensures Valid()
      ensures outcome == Respond(apiKey, Request(filename, headers, remoteAddr))
      ensures log == Emit(old(log), AuditRecord(apiKey, Request(filename, headers, remoteAddr)), INFO, loggerLevel)
      ensures Passes(INFO, loggerLevel) ==> log == old(log) + [AuditRecord(apiKey, Request(filename, headers, remoteAddr))]
      ensures !Passes(INFO, loggerLevel) ==> log == old(log)
      ensures served == old(served) + (if outcome.Served? then [filename] else [])
      ensures trace == old(trace) + Steps(apiKey, Request(filename, headers, remoteAddr))
    {
      ghost var req := Request(filename, headers, remoteAddr);
      var presented := PresentedKey(headers);
      if Denied(apiKey, presented) {
        DeniedSteps(apiKey, req);
        Info("DENY " + RenderAddr(remoteAddr) + " " + filename + " headers=" + RenderHeaders(Merge(headers)));
        Abort403();
        assert trace == old(trace) + Steps(apiKey, req);
        return Forbidden;
      }
      AllowedSteps(apiKey, req);
      Info("ALLOW " + RenderAddr(remoteAddr) + " " + filename);
      Serve(filename);
      assert trace == old(trace) + Steps(apiKey, req);
      return Served(filename);
    }
  }

  /** As written, outside debug mode, a request to a server with an empty access log leaves it empty. */
  method AsWrittenRequestLogsNothing(apiKey: string, req: Request) returns (log: seq<string>)
    ensures log == []
  {
    var app := new App(apiKey, FlaskLoggerLevel(false), []);
    var outcome := app.GetFile(req.filename, req.headers, req.remoteAddr);
    log := app.log;
  }

  /** With the logger at INFO, a request to a server with an empty access log leaves exactly its audit line. */
  method CorrectedRequestLogsOneLine(apiKey: string, req: Request) returns (log: seq<string>)
    ensures log == [AuditRecord(apiKey, req)]
  {
    CorrectedKeepsAuditLines([], AuditRecord(apiKey, req));
    var app := new App(apiKey, AuditLoggerLevel, []);
    var outcome := app.GetFile(req.filename, req.headers, req.remoteAddr);
    log := app.log;
  }
}

=== FILE: headers.dfy ===
/**
  Request headers, and how the route sees them.

  The client sends a sequence of header lines, in which a name may repeat.
  Before the route runs, the server folds them into the request object's
  view: one entry per name, at the place the name first appeared. For every
  name except `Content-Type` and `Content-Length` the entry's value is all
  the values sent under that name joined with ","; this model folds those
  two names the same way, although the server keeps only their last value.
  The route reads the view with `request.headers.get(name, default)`.
 */
module Headers {
  import opened Wrappers

  /** One header line as the client sent it. */
  datatype Header = Header(name: string, value: string)

  /** ASCII lower-casing of one character; other characters are left as they are. */
  function LowerAscii(c: char): char
  {
    if 'A' <= c <= 'Z' then (c as int + 32) as char else c
  }

  /** ASCII lower-casing of a header name. */
  function Lower(s: string): string
  {
    seq(|s|, i requires 0 <= i < |s| => LowerAscii(s[i]))
  }

  /** Header names are compared without regard to ASCII case. */
  predicate SameName(a: string, b: string)
  {
    Lower(a) == Lower(b)
  }

  /** Whether some header is called `name`. */
  predicate Present(hs: seq<Header>, name: string)
  {
    exists i :: 0 <= i < |hs| && SameName(hs[i].name, name)
  }

  /** Position of the first header called `name`, or None when there is none. */
  function FindFirst(hs: seq<Header>, name: string): (r: Option<nat>)
    ensures r.Some? ==> r.value < |hs| && SameName(hs[r.value].name, name)
    ensures r.Some? ==> forall j :: 0 <= j < r.value ==> !SameName(hs[j].name, name)
    ensures r.None? <==> !Present(hs, name)
  {
    if |hs| == 0 then None
    else if SameName(hs[0].name, name) then Some(0)
    else
      match FindFirst(hs[1..], name)
      case None => None
      case Some(k) => Some(k + 1)
  }

  /** `headers.get(name, default)` on the request object's view: the value of the entry called `name`, else `default`. */
  function Get(env: seq<Header>, name: string, default: string): (r: string)
    ensures !Present(env, name) ==> r == default
    ensures forall i ::
              (0 <= i < |env| && SameName(env[i].name, name) &&
               forall j :: 0 <= j < i ==> !SameName(env[j].name, name))
              ==> r == env[i].value
  {
    match FindFirst(env, name)
    case None => default
    case Some(i) => env[i].value
  }

  /** The values sent under `name`, in the order they were sent. */
  function Values(hs: seq<Header>, name: string): seq<string>
  {
    if |hs| == 0 then []
    else Values(hs[..|hs| - 1], name) + (if SameName(hs[|hs| - 1].name, name) then [hs[|hs| - 1].value] else [])
  }

  /** `",".join(vs)`. */
  function Join(vs: seq<string>): (r: string)
    ensures |vs| == 1 ==> r == vs[0]
  {
    if |vs| == 0 then ""
    else if |vs| == 1 then vs[0]
    else Join(vs[..|vs| - 1]) + "," + vs[|vs| - 1]
  }

  /** One more header line into the view: joined onto the entry of its name, or added as a new entry. */
  function Add(env: seq<Header>, h: Header): seq<Header>
  {
    match FindFirst(env, h.name)
    case None => env + [h]
    case Some(i) => env[i := Header(env[i].name, env[i].value + "," + h.value)]
  }

  /** Adding a line keeps every earlier entry's name, and adds an entry only for a new name. */
  lemma AddShape(env: seq<Header>, h: Header)
    ensures |env| <= |Add(env, h)| <= |env| + 1
    ensures forall i :: 0 <= i < |env| ==> Add(env, h)[i].name == env[i].name
    ensures |Add(env, h)| == |env| + 1 ==> Add(env, h)[|env|] == h && !Present(env, h.name)
  {
  }

  lemma PresentExtend(p: seq<Header>, h: Header, name: string)
    requires Present(p, name) || SameName(h.name, name)
    ensures Present(p + [h], name)
  {
    if SameName(h.name, name) {
      assert (p + [h])[|p|] == h;
    } else {
      var i :| 0 <= i < |p| && SameName(p[i].name, name);
      assert (p + [h])[i] == p[i];
    }
  }

  /**
    `env` can be a view of the header lines `raw`: no more entries than
    lines, every entry named after some line that was sent, and no two
    entries with the same name.
   */
  predicate IsView(raw: seq<Header>, env: seq<Header>)
  {
    && |env| <= |raw|
    && (forall i :: 0 <= i < |env| ==> Present(raw, env[i].name))
    && (forall i, j :: 0 <= i < j < |env| ==> !SameName(env[i].name, env[j].name))
  }

  /** The request object's view of the header lines `raw`. */
  function Merge(raw: seq<Header>): (env: seq<Header>)
    ensures IsView(raw, env)
  {
    if |raw| == 0 then []
    else
      var p, h := raw[..|raw| - 1], raw[|raw| - 1];
      var prev := Merge(p);
      AddShape(prev, h);
      assert raw == p + [h];
      var env := Add(prev, h);
      assert forall i :: 0 <= i < |env| ==> Present(raw, env[i].name) by {
        forall i | 0 <= i < |env|
          ensures Present(raw, env[i].name)
        {
          if i < |prev| {
            PresentExtend(p, h, env[i].name);
          } else {
            PresentExtend(p, h, h.name);
          }
        }
      }
      env
  }

  lemma {:induction false} ValuesEmpty(hs: seq<Header>, name: string)
    ensures Values(hs, name) == [] <==> !Present(hs, name)
  {
    if |hs| > 0 {
      var p := hs[..|hs| - 1];
      ValuesEmpty(p, name);
      if Present(hs, name) && !SameName(hs[|hs| - 1].name, name) {
        var i :| 0 <= i < |hs| && SameName(hs[i].name, name);
        assert p[i] == hs[i];
      }
      if Present(p, name) {
        var i :| 0 <= i < |p| && SameName(p[i].name, name);
        assert hs[i] == p[i];
      }
    }
  }

  lemma {:induction false} FindFirstSameName(env: seq<Header>, a: string, b: string)
    requires SameName(a, b)
    ensures FindFirst(env, a) == FindFirst(env, b)
  {
    if |env| > 0 {
      FindFirstSameName(env[1..], a, b);
    }
  }

  lemma {:induction false} FindFirstSameNames(a: seq<Header>, b: seq<Header>, name: string)
    requires |a| == |b|
    requires forall i :: 0 <= i < |a| ==> a[i].name == b[i].name
    ensures FindFirst(a, name) == FindFirst(b, name)
  {
    if |a| > 0 {
      FindFirstSameNames(a[1..], b[1..], name);
    }
  }

  lemma {:induction false} FindFirstAppend(env: seq<Header>, h: Header, name: string)
    ensures FindFirst(env + [h], name) ==
            if FindFirst(env, name).Some? then FindFirst(env, name)
            else if SameName(h.name, name) then Some(|env|)
            else None
  {
    if |env| == 0 {
      assert env + [h] == [h];
      assert [h][1..] == [];
    } else {
      assert (env + [h])[1..] == env[1..] + [h];
      FindFirstAppend(env[1..], h, name);
    }
  }

  /** What adding one header line does to the lookup of `name`, given what the lookup gave before. */
  lemma AddLookup(env: seq<Header>, h: Header, name: string, vs: seq<string>)
    requires FindFirst(env, name).None? <==> vs == []
    requires FindFirst(env, name).Some? ==> env[FindFirst(env, name).value].value == Join(vs)
    ensures var vs' := vs + (if SameName(h.name, name) then [h.value] else []);
            && (FindFirst(Add(env, h), name).None? <==> vs' == [])
            && (FindFirst(Add(env, h), name).Some? ==>
                  Add(env, h)[FindFirst(Add(env, h), name).value].value == Join(vs'))
  {
    var vs' := vs + (if SameName(h.name, name) then [h.value] else []);
    match FindFirst(env, h.name)
    case Some(i) =>
      var env' := env[i := Header(env[i].name, env[i].value + "," + h.value)];
      assert Add(env, h) == env';
      FindFirstSameNames(env, env', name);
      if SameName(h.name, name) {
        FindFirstSameName(env, h.name, name);
        assert vs'[..|vs'| - 1] == vs;
      } else {
        assert vs' == vs;
        if FindFirst(env, name).Some? {
          assert FindFirst(env, name).value != i;
        }
      }
    case None =>
      assert Add(env, h) == env + [h];
      FindFirstAppend(env, h, name);
      if SameName(h.name, name) {
        FindFirstSameName(env, h.name, name);
        assert vs' == [h.value];
      } else {
        assert vs' == vs;
        if FindFirst(env, name).Some? {
          assert (env + [h])[FindFirst(env, name).value] == env[FindFirst(env, name).value];
        }
      }
  }

  /**
    The view has an entry called `name` exactly when some header line was
    sent under that name, and its value is all those values joined with ",".
   */
  lemma {:induction false} MergeLookup(raw: seq<Header>, name: string)
    ensures FindFirst(Merge(raw), name).None? <==> Values(raw, name) == []
    ensures FindFirst(Merge(raw), name).Some? ==>
              Merge(raw)[FindFirst(Merge(raw), name).value].value == Join(Values(raw, name))
  {
    if |raw| > 0 {
      var p, h := raw[..|raw| - 1], raw[|raw| - 1];
      MergeLookup(p, name);
      AddLookup(Merge(p), h, name, Values(p, name));
    }
  }
}

=== FILE: logging_levels.dfy ===
/**
  The level filtering Python's logging applies between `app.logger.info(...)`
  and the file handler that writes the audit sink.

  A record reaches the handler only when its level is at least the logger's
  effective level (its own level, or the root logger's when its own is unset)
  and at least the handler's level.
 */
module Logging {

  const NOTSET: nat := 0
  const DEBUG: nat := 10
  const INFO: nat := 20
  const WARNING: nat := 30

  /** Level of the root logger when nothing configures it. */
  const RootLevel: nat := WARNING

  /** Level given to the file handler of the audit sink. */
  const HandlerLevel: nat := INFO

  /** `getEffectiveLevel()` of a logger whose parent is the root logger. */
  function EffectiveLevel(own: nat): nat
  {
    if own != NOTSET then own else RootLevel
  }

  /** Whether a record at `level` passes a logger at `loggerLevel` and then the handler. */
  predicate Passes(level: nat, loggerLevel: nat)
  {
    level >= EffectiveLevel(loggerLevel) && level >= HandlerLevel
  }

  /** The sink after logging `line` at `level` through a logger at `loggerLevel`. */
  function Emit(sink: seq<string>, line: string, level: nat, loggerLevel: nat): (r: seq<string>)
    ensures r == sink || r == sink + [line]
    ensures r == sink + [line] <==> level >= EffectiveLevel(loggerLevel) && level >= HandlerLevel
  {
    if Passes(level, loggerLevel) then sink + [line] else sink
  }

  /**
    The level the application's logger has as written: Flask sets it to
    DEBUG in debug mode and otherwise leaves it unset.
   */
  function FlaskLoggerLevel(debug: bool): (l: nat)
    ensures !debug ==> EffectiveLevel(l) == WARNING
    ensures debug ==> EffectiveLevel(l) == DEBUG
  {
    if debug then DEBUG else NOTSET
  }

  /**
    As written, an INFO audit line reaches the sink only in debug mode;
    otherwise the root level WARNING discards it and the sink is unchanged.
   */
  lemma AsWrittenDropsAuditLines(sink: seq<string>, line: string)
    ensures Emit(sink, line, INFO, FlaskLoggerLevel(false)) == sink
    ensures Emit(sink, line, INFO, FlaskLoggerLevel(true)) == sink + [line]
  {
  }

  /** The logger level that lets the audit lines through: `app.logger.setLevel(logging.INFO)`. */
  const AuditLoggerLevel: nat := INFO

  /** With the logger at INFO, every INFO audit line is appended to the sink. */
  lemma CorrectedKeepsAuditLines(sink: seq<string>, line: string)
    ensures Emit(sink, line, INFO, AuditLoggerLevel) == sink + [line]
  {
  }
}

=== FILE: wrappers.dfy ===
/** Optional values, used for an absent remote address and an absent header. */
module Wrappers {

  datatype Option<+T> = None | Some(value: T)
}
